=== FILE: README.md ===
# SumatraPDF crash handler — a Dafny model

This project models the decision logic of SumatraPDF's in-process crash handler
(`src/CrashHandler.cpp`). The handler installs itself as the process-wide
unhandled-exception filter. On the first real fault it records the faulting
thread and exception and wakes a dedicated worker thread. The worker writes a
minidump through the late-bound DBGHELP.DLL and then a text report: OS line,
module list, exception, and the call stacks of all threads.

Every Windows call becomes an input or an oracle result. Examples: what
DBGHELP.DLL exports, what `SymInitialize` returns, the unwinder's successive
program counters, `SymFromAddr` answers per address, `OpenThread`/
`SuspendThread`/`GetThreadContext` success per thread, and the PE section table
of a module. What remains are pure functions over datatypes, plus one immutable
state record for the install/handler state machine.

Modules (one file each):

- `Win32` (`win32.dfy`): `Option`, `Dword`, and DWORD wrap-around (`ToDword`).
- `DbgHelp` (`dbghelp.dfy`): the table of late-bound entry points, `LoadDbgHelpFuncs`, and `CanStackWalk`.
- `OsVersion` (`os_version.dfy`): `OsNameFromVer` and the fields of the "OS:" line.
- `PeSections` (`pe_sections.dfy`): the section search of `GetAddrInfo`, written as a loop (`FindSection`) and as a recursive reference (`FirstSectionFrom`).
- `ExceptionCodes` (`exception_codes.dfy`): the exception record and the known-code names.
- `MiniDump` (`minidump.dfy`): the module-filter callback, the dump-type flags, and the worker thread's control flow.
- `StackWalk` (`stack_walk.dfy`): the resolution ladder and the bounded walk of at most 32 frames.
- `Threads` (`threads.dfy`): per-thread Open/Suspend/Resume/Close traces, and a replay checker for the handle discipline.
- `FaultHandler` (`fault_handler.dfy`): the global state record, install, the one-shot filter, and runs of arbitrary install/fault sequences.

Behaviour kept exactly as the code has it:

- `GetAddrInfo` reads a section's virtual size but never adds it (line 240 is a bare expression statement). When the raw size is not larger than the virtual size, a section therefore matches only its first byte. `start + SizeOfRawData` wraps in 32 bits, and the upper bound is inclusive.
- The last rung of the frame ladder prints the literal text `%08X`, never the address.
- The bitness word is inverted: a 64-bit host is labelled "32bit".
- The Windows Server 2003 label is spelled "Sever 2003".
- The worker returns early when `MiniDumpWriteDump` is missing or the dump file cannot be created. In both cases it also skips `SaveCrashInfoText`, so no text report is written. The model follows this (`MiniDump.CrashDumpThread`, `MiniDump.TextReportNeedsDump`).

## Model

| member | source | states |
|---|---|---|
| Win32.ToDword | src/CrashHandler.cpp:224-232 | a DWORD conversion yields a value below 2^32 congruent to its input, and leaves values already in range unchanged |
| DbgHelp.LoadDbgHelpFuncs | src/CrashHandler.cpp:94-99 | the library is consulted if and only if MiniDumpWriteDump is unbound: an unbound table is replaced by the library's exports, a bound one is returned unchanged |
| DbgHelp.LoadIsStable | src/CrashHandler.cpp:94-99 | loading is idempotent, and once MiniDumpWriteDump is bound no later load changes the table |
| DbgHelp.CanStackWalkNeedsEverySymbolProc | src/CrashHandler.cpp:101-106 | stack walking needs the SymInitialize result and all seven symbol-engine pointers, and ignores MiniDumpWriteDump |
| OsVersion.OsNameFromVer | src/CrashHandler.cpp:142-162 | the label is total, never empty, and always one of the seven fixed labels |
| OsVersion.OsNameMatchesReleaseTable | src/CrashHandler.cpp:142-162 | non-NT gives "Unknown"; (6,1) "7", (6,0) "Vista", (5,2) "Sever 2003", (5,1) "XP", (5,0) "2000"; other majors up to 4 give "9xOrNT"; the rest give "Unknown" |
| OsVersion.UnknownExactly | src/CrashHandler.cpp:142-162 | "Unknown" is returned if and only if the platform is not NT, or the version is newer than 4 and not a named release |
| OsVersion.GetOsVersion | src/CrashHandler.cpp:179-194 | no line when GetVersionEx fails; otherwise the label, the service-pack levels, the build number reduced to 16 bits, and "Wow64" exactly under WOW64 |
| OsVersion.BitnessLabelInverted | src/CrashHandler.cpp:191 | a 64-bit host is labelled "32bit" and any other host "64bit" |
| PeSections.RelativeAddress | src/CrashHandler.cpp:224-232 | base plus the relative address equals the address modulo 2^32 |
| PeSections.FirstSectionFrom | src/CrashHandler.cpp:233-250 | the result is the first section from the given index whose inclusive range holds the address, with its 1-based number and the offset from its start; None means no section from there holds it |
| PeSections.FindSection | src/CrashHandler.cpp:232-250 | the loop succeeds iff some section holds the address; it reports the first such section (1-based) and the offset from its start; on failure the caller's outputs are left untouched |
| PeSections.GetAddrInfo | src/CrashHandler.cpp:218-251 | fails when the address-space queries fail; otherwise succeeds iff some section holds the relative address; reports the module's file name, the first section (1-based) whose range holds the relative address, and the offset from that section's start |
| PeSections.GetAddrInfoLocatesAddress | src/CrashHandler.cpp:232-247 | module base plus the section's virtual address plus the reported offset equals the address modulo 2^32 |
| PeSections.CollapsedSectionMatchesOnlyStart | src/CrashHandler.cpp:235-242 | when the raw size is not larger than the virtual size, the section matches only its start address |
| PeSections.WrappedSectionMatchesNothing | src/CrashHandler.cpp:236-242 | a section whose end wraps past 2^32 matches no address |
| PeSections.EndIsInclusive | src/CrashHandler.cpp:242 | the address just past the raw data of a section still matches it |
| ExceptionCodes.ExceptionNameFromCode | src/CrashHandler.cpp:376-415 | a known code gets its non-empty symbolic name; any other code gets the system message |
| ExceptionCodes.BreakpointIsNamed | src/CrashHandler.cpp:384 | the breakpoint code is named BREAKPOINT |
| ExceptionCodes.KnownNamesDistinct | src/CrashHandler.cpp:376-409 | two known codes get the same name if and only if they are the same code |
| MiniDump.FilterModuleFlags | src/CrashHandler.cpp:115-116 | only the ModuleWriteModule bit can change; it survives iff the module is referenced by memory |
| MiniDump.OpenMiniDumpCallback | src/CrashHandler.cpp:108-126 | NULL input or output gives FALSE; a module callback filters the flags and gives TRUE; include and thread callbacks give TRUE with flags untouched; every other kind gives FALSE |
| MiniDump.ModuleFilterKeepsReferenced | src/CrashHandler.cpp:114-117 | a module is kept iff it is referenced by memory, the referenced bit is preserved, and filtering twice changes nothing |
| MiniDump.DumpType | src/CrashHandler.cpp:507-510 | always Normal, IndirectlyReferencedMemory and ScanMemory; DataSegs, HandleData and PrivateReadWriteMemory exactly when the variable is set; never full memory or any other bit |
| MiniDump.EscalationIsStrictSuperset | src/CrashHandler.cpp:507-510 | the escalated dump type strictly contains the default (0x50 and 0x255) |
| MiniDump.CrashDumpThread | src/CrashHandler.cpp:485-521 | a dump is requested iff MiniDumpWriteDump is bound and the file was created; it carries the recorded thread and exception and the dump type chosen by the full-dump variable; the text report follows only a dump |
| MiniDump.TextReportNeedsDump | src/CrashHandler.cpp:490-517 | no text report is written when the dump was not requested, in particular when the dump file cannot be created |
| StackWalk.ResolveFrame | src/CrashHandler.cpp:293-312 | the ladder: symbol and 32-bit displacement when SymFromAddr succeeds; otherwise module, section and offset when GetAddrInfo succeeds; otherwise the raw line |
| StackWalk.RawFallbackForgetsAddress | src/CrashHandler.cpp:309-311 | two addresses that neither the symbol engine nor the section lookup resolves get the same label, because the address is not printed |
| StackWalk.UnwoundDepth | src/CrashHandler.cpp:284-288 | counts the unwind steps that succeed before the first failure |
| StackWalk.WalkFromFrames | src/CrashHandler.cpp:280-314 | the walk holds one frame per successful unwind step up to the first failure or the cap, each resolved by the ladder |
| StackWalk.GetCallstack | src/CrashHandler.cpp:255-315 | nothing unless CanStackWalk; otherwise min(32, successful steps) frames, at most 32, in unwind order, each labelled by the ladder |
| Threads.GetThreadCallstack | src/CrashHandler.cpp:325-354 | the calling thread yields nothing; any other thread gets its header first, and every event concerns that thread |
| Threads.ThreadTracePairing | src/CrashHandler.cpp:333-353 | a thread is closed exactly once iff it was opened, and resumed exactly once iff it was suspended, even when GetThreadContext fails |
| Threads.ThreadTraceNotes | src/CrashHandler.cpp:334-351 | open failure, suspend failure and context failure are each noted exactly on their path; the stack is walked iff the context was captured |
| Threads.ThreadTraceDisciplined | src/CrashHandler.cpp:333-353 | each thread's trace is well ordered: open, then suspend, then resume, then close, with nothing left held |
| Threads.VisitThreads | src/CrashHandler.cpp:366-371 | every event concerns a thread owned by the current process other than the caller, and every such thread gets its header line |
| Threads.ThreadTraceReaches | src/CrashHandler.cpp:325-354 | one thread's trace lists, opens, suspends and walks that thread, and writes each failure note, once exactly when it is not the caller and its host answers take it there; it never marks another thread |
| Threads.VisitThreadsReaches | src/CrashHandler.cpp:366-371 | over the whole enumeration, each thread other than the caller is listed, opened, suspended, walked, and given each failure note once per owned snapshot entry whose host answers take it there; the caller never is |
| Threads.VisitThreadsWalkedFrames | src/CrashHandler.cpp:343-347 | every stack in the enumeration is the walk of an owned snapshot entry of that thread, computed from that entry's unwinder |
| Threads.ThreadTraceUnderHeader | src/CrashHandler.cpp:330-353 | a thread's failure notes and stack all follow its own "Thread:" header, whatever precedes that header |
| Threads.VisitThreadsUnderHeaders | src/CrashHandler.cpp:366-371 | over the whole enumeration, every note and stack sits under its own thread's header and never under another thread's |
| Threads.VisitThreadsDisciplined | src/CrashHandler.cpp:366-371 | over the whole enumeration, threads are handled one at a time and nothing is left open or suspended |
| Threads.VisitThreadsPairing | src/CrashHandler.cpp:366-371 | over the whole enumeration, each thread is resumed as often as suspended and closed as often as opened |
| Threads.GetAllThreadsCallstacks | src/CrashHandler.cpp:356-374 | nothing without a snapshot; otherwise the owner-pid filter, caller skipped, each own thread listed, opened, suspended, walked and given its failure notes as often as its host answers dictate, every note and stack under its own thread's header, each stack the walk of that thread's unwinder, pairing, and the handle discipline |
| FaultHandler.InstallCrashHandler | src/CrashHandler.cpp:547-574 | symbol-engine setup, with the three options OR-ed into the current ones exactly when SymInitialize is bound and succeeds; a null dump path registers nothing; otherwise the paths are overwritten and the event, worker and filter are created only when none exists; no fault record changes |
| FaultHandler.DumpExceptionHandler | src/CrashHandler.cpp:523-545 | always CONTINUE_SEARCH; NULL, breakpoint or repeated faults change nothing; the first real fault records thread and exception, runs the worker once on them, and changes nothing else but the entry-point table the worker binds |
| FaultHandler.WithCrashSymOptions | src/CrashHandler.cpp:553-557 | the three options are set and every other option bit is kept as SymGetOptions reported it |
| FaultHandler.RunPreservesValid | src/CrashHandler.cpp:523-574 | every sequence of installs and faults keeps event, worker and filter created together and once, with at most one dump sequence, after the one-shot flag |
| FaultHandler.AtMostOneDumpSequence | src/CrashHandler.cpp:528-531 | from process start, at most one dump sequence runs and the event and worker are each created at most once |
| FaultHandler.RecordedFaultIsFinal | src/CrashHandler.cpp:528-534 | once the one-shot flag is set, no later event changes the recorded thread, exception or dump sequences |
| FaultHandler.NoDumpPathNoHandler | src/CrashHandler.cpp:564-565 | installs without a dump path never register the filter, so no fault is recorded and no dump runs |
| FaultHandler.FirstFaultWins | src/CrashHandler.cpp:525-539 | after install, the first non-breakpoint fault is recorded whatever events follow it one at a time, and exactly one dump sequence runs for that thread and exception |

## Left out

- Late binding itself (`LoadDllFuncs`, `GetProcAddress`): a foreign call with no visible source. Its outcome is an oracle table of bound entry points that replaces the current one.
- `MiniDumpWriteDump`, `StackWalk64`, `SymFromAddr` and `SymInitialize`: foreign calls. They appear only as availability flags and oracle answers.
- Reading PE headers from process memory (`VirtualQuery`, `GetModuleFileNameA`, `e_lfanew`): host memory access. The module image is an optional input; None stands for either query failing.
- The `NumberOfSections` field is a WORD. The model takes the section table's length instead.
- Toolhelp snapshots (`CreateToolhelp32Snapshot`, `Module32*`, `Thread32*`): host enumeration. They are given as an optional list.
- `GetModules` and the "Module:" lines: pure formatting of that list, not modelled.
- `Is64Bit`, `IsWow64` and `GetVersionEx`: host queries. Their answers are booleans and a version record.
- printf-style formatting of every report line, and the register dump in `GetExceptionInfo`: architecture-dependent formatting with no logic. Only the literal fallback line is kept.
- `GetExceptionInfo` prints section and offset even when `GetAddrInfo` fails, i.e. uninitialised values. That print path is not modelled.
- `Path::GetBaseName`: its source is not part of this model. Frame labels carry the full module path.
- `BuildCrashInfoText`, `SaveCrashInfoText` and `GetCurrentThreadCallstack`: report assembly and file output. The model records only whether the text report is written.
- The `FormatMessageA` fallback of `ExceptionNameFromCode`: a system message lookup. Its text is an oracle string.
- File creation and writing, `MessageBox`, and localized strings: I/O and UI. `CreateFile` success is a boolean.
- `CreateEvent`, `CreateThread`, `SetEvent` and `WaitForSingleObject`: real concurrency. Signalling the worker and joining it are one atomic step. Event and thread creation are assumed to succeed, so failure paths (a worker waiting on a NULL event) are not modelled.
- FaultHandler.InstallCrashHandler: calls `SymGetOptions`/`SymSetOptions` after a successful `SymInitialize` without checking that those pointers are bound. The model records the options as set, and does not model the NULL call.
- FaultHandler.Step: each fault is handled as one atomic step, one at a time. In the code the `wasHere` check and set (lines 528-531) is not synchronised, so two threads faulting at once can both pass it and both write the recorded thread and exception (lines 533-534); that race is not modelled, and `AtMostOneDumpSequence`, `RecordedFaultIsFinal` and `FirstFaultWins` hold only for faults that arrive one at a time.
- `Str::Dup` of a NULL report path: the model assumes it yields NULL, i.e. None.

=== FILE: dbghelp.dfy ===
/**
 The table of entry points late-bound from DBGHELP.DLL. Each field says whether
 the corresponding function pointer is non-null; the library itself is an
 oracle whose exports are given as another table.
 */
module DbgHelp {

  datatype Procs = Procs(
    miniDumpWriteDump: bool,
    symInitialize: bool,
    symGetOptions: bool,
    symSetOptions: bool,
    stackWalk64: bool,
    symFunctionTableAccess64: bool,
    symGetModuleBase64: bool,
    symFromAddr: bool)

  /** The process-start table: every pointer is NULL. */
  const Unloaded := Procs(false, false, false, false, false, false, false, false)

  /** LoadDbgHelpFuncs: the library is consulted only while MiniDumpWriteDump
      is still unbound; `exports` is what the library provides. */
  function LoadDbgHelpFuncs(current: Procs, exports: Procs): (r: Procs)
    ensures current.miniDumpWriteDump ==> r == current
    ensures !current.miniDumpWriteDump ==> r == exports
    ensures r.miniDumpWriteDump <==> current.miniDumpWriteDump || exports.miniDumpWriteDump
  {
    if current.miniDumpWriteDump then current else exports
  }

  /** Loading is idempotent, and once MiniDumpWriteDump is bound the table is
      frozen: no later load, whatever the library exports, changes it. */
  lemma LoadIsStable(current: Procs, exports: Procs, later: Procs)
    ensures LoadDbgHelpFuncs(LoadDbgHelpFuncs(current, exports), exports) == LoadDbgHelpFuncs(current, exports)
    ensures LoadDbgHelpFuncs(current, exports).miniDumpWriteDump ==>
              LoadDbgHelpFuncs(LoadDbgHelpFuncs(current, exports), later) == LoadDbgHelpFuncs(current, exports)
  {
  }

  /** CanStackWalk: SymInitialize succeeded and the seven symbol-engine entry
      points are bound (MiniDumpWriteDump is not consulted). */
  predicate CanStackWalk(symInitializeOk: bool, p: Procs)
  {
    && symInitializeOk
    && p.symInitialize
    && p.symGetOptions
    && p.symSetOptions
    && p.stackWalk64
    && p.symFunctionTableAccess64
    && p.symGetModuleBase64
    && p.symFromAddr
  }

  /** Stack walking depends on neither the dump writer's entry point nor
      anything but the symbol engine: dropping any one of the seven pointers or
      the SymInitialize result disables it. */
  lemma CanStackWalkNeedsEverySymbolProc(ok: bool, p: Procs, b: bool)
    ensures CanStackWalk(ok, p) == CanStackWalk(ok, p.(miniDumpWriteDump := b))
    ensures !CanStackWalk(false, p)
    ensures !CanStackWalk(ok, p.(symInitialize := false))
    ensures !CanStackWalk(ok, p.(symGetOptions := false))
    ensures !CanStackWalk(ok, p.(symSetOptions := false))
    ensures !CanStackWalk(ok, p.(stackWalk64 := false))
    ensures !CanStackWalk(ok, p.(symFunctionTableAccess64 := false))
    ensures !CanStackWalk(ok, p.(symGetModuleBase64 := false))
    ensures !CanStackWalk(ok, p.(symFromAddr := false))
  {
  }
}

=== FILE: exception_codes.dfy ===
/**
 Structured-exception codes: the record the fault handler receives and the
 symbolic names the report prints for the codes the program knows.
 */
module ExceptionCodes {
  import opened Win32

  /** The part of EXCEPTION_POINTERS the handler and the report read: the code
      and the faulting address, which tells apart two records with the same
      code. */
  datatype ExceptionRecord = ExceptionRecord(code: Dword, address: nat)

  const ExceptionBreakpoint: Dword := 0x8000_0003

  /** The codes the name switch recognises (the EXCEPTION_* values of winnt.h). */
  const KnownExceptions: map<Dword, string> := map[
    0xC000_0005 := "ACCESS_VIOLATION",
    0x8000_0002 := "DATATYPE_MISALIGNMENT",
    0x8000_0003 := "BREAKPOINT",
    0x8000_0004 := "SINGLE_STEP",
    0xC000_008C := "ARRAY_BOUNDS_EXCEEDED",
    0xC000_008D := "FLT_DENORMAL_OPERAND",
    0xC000_008E := "FLT_DIVIDE_BY_ZERO",
    0xC000_008F := "FLT_INEXACT_RESULT",
    0xC000_0090 := "FLT_INVALID_OPERATION",
    0xC000_0091 := "FLT_OVERFLOW",
    0xC000_0092 := "FLT_STACK_CHECK",
    0xC000_0093 := "FLT_UNDERFLOW",
    0xC000_0094 := "INT_DIVIDE_BY_ZERO",
    0xC000_0095 := "INT_OVERFLOW",
    0xC000_0096 := "PRIV_INSTRUCTION",
    0xC000_0006 := "IN_PAGE_ERROR",
    0xC000_001D := "ILLEGAL_INSTRUCTION",
    0xC000_0025 := "NONCONTINUABLE_EXCEPTION",
    0xC000_00FD := "STACK_OVERFLOW",
    0xC000_0026 := "INVALID_DISPOSITION",
    0x8000_0001 := "GUARD_PAGE",
    0xC000_0008 := "INVALID_HANDLE"]

  /** ExceptionNameFromCode: the symbolic name of a known code, otherwise the
      system message text for the code (`systemMessage`, an oracle). */
  function ExceptionNameFromCode(code: Dword, systemMessage: string): (r: string)
    ensures code in KnownExceptions ==> r == KnownExceptions[code] && r != []
    ensures code !in KnownExceptions ==> r == systemMessage
  {
    if code in KnownExceptions then KnownExceptions[code] else systemMessage
  }

  /** The "Exception:" line tells known codes apart: no two known codes share
      a name. */
  lemma KnownNamesDistinct(a: Dword, b: Dword, systemMessage: string)
    requires a in KnownExceptions && b in KnownExceptions
    ensures ExceptionNameFromCode(a, systemMessage) == ExceptionNameFromCode(b, systemMessage) <==> a == b
  {
  }

  /** The breakpoint code the fault handler ignores is a known code, named BREAKPOINT. */
  lemma BreakpointIsNamed(systemMessage: string)
    ensures ExceptionNameFromCode(ExceptionBreakpoint, systemMessage) == "BREAKPOINT"
  {
  }
}

=== FILE: fault_handler.dfy ===
/**
 The fault coordinator: the process-wide state the crash handler keeps, the
 install call, and the unhandled-exception filter with its one-shot guard.
 Signalling the dump worker and waiting for it are collapsed into one atomic
 step that appends the worker's outcome to `runs`.
 */
module FaultHandler {
  import opened Win32
  import opened DbgHelp
  import opened ExceptionCodes
  import opened MiniDump

  /** EXCEPTION_CONTINUE_SEARCH */
  const ExceptionContinueSearch: int := 0

  // Symbol-engine options OR-ed in after a successful SymInitialize (dbghelp.h).
  const SymOptDeferredLoads: bv32 := 0x0004
  const SymOptLoadLines: bv32 := 0x0010
  const SymOptFailCriticalErrors: bv32 := 0x0200

  /** The process-wide state of the crash handler. */
  datatype CrashState = CrashState(
    procs: Procs,                           // late-bound DBGHELP.DLL entry points
    symInitializeOk: bool,                  // gSymInitializeOk
    symOptions: Option<bv32>,               // last value passed to SymSetOptions
    crashDumpPath: Option<string>,
    crashTxtPath: Option<string>,
    dumpEvent: bool,                        // g_dumpEvent is non-null
    dumpThread: bool,                       // g_dumpThread is non-null
    filterRegistered: bool,                 // SetUnhandledExceptionFilter was called
    eventsCreated: nat,
    workersCreated: nat,
    wasHere: bool,                          // the handler's one-shot flag
    threadId: nat,                          // mei.ThreadId
    exceptionPointers: Option<ExceptionRecord>, // mei.ExceptionPointers
    runs: seq<WorkerOutcome>)               // completed dump sequences

  /** The state at process start: everything zero or NULL. */
  const Initial := CrashState(Unloaded, false, None, None, None, false, false, false, 0, 0, false, 0, None, [])

  /** The host's answers during install: what DBGHELP.DLL exports, what
      SymInitialize returns, and what SymGetOptions reports. */
  datatype InstallOracle = InstallOracle(exports: Procs, symInitializeResult: bool, currentSymOptions: bv32)

  /** The options set after a successful SymInitialize: the current ones with
      line loading, no critical-error boxes and deferred loads added. */
  function WithCrashSymOptions(current: bv32): (r: bv32)
    ensures r & (SymOptDeferredLoads | SymOptLoadLines | SymOptFailCriticalErrors)
            == SymOptDeferredLoads | SymOptLoadLines | SymOptFailCriticalErrors
    ensures r & !(SymOptDeferredLoads | SymOptLoadLines | SymOptFailCriticalErrors)
            == current & !(SymOptDeferredLoads | SymOptLoadLines | SymOptFailCriticalErrors)
  {
    current | SymOptLoadLines | SymOptFailCriticalErrors | SymOptDeferredLoads
  }

  /** The part of the state a fault writes. */
  predicate SameFaultRecord(a: CrashState, b: CrashState)
  {
    a.wasHere == b.wasHere && a.threadId == b.threadId && a.exceptionPointers == b.exceptionPointers && a.runs == b.runs
  }

  /** InstallCrashHandler: bind DBGHELP.DLL, initialise the symbol engine when
      SymInitialize is bound, and, when a dump path is given, store both paths
      and create the event, the worker and the filter unless an event or a
      worker already exists. Creation of the event and the thread is assumed
      to succeed. */
  function InstallCrashHandler(s: CrashState, crashDumpPath: Option<string>, crashTxtPath: Option<string>,
                               o: InstallOracle): (r: CrashState)
    ensures r.procs == LoadDbgHelpFuncs(s.procs, o.exports)
    ensures r.symInitializeOk == (if r.procs.symInitialize then o.symInitializeResult else s.symInitializeOk)
    ensures r.procs.symInitialize && r.symInitializeOk ==> r.symOptions == Some(WithCrashSymOptions(o.currentSymOptions))
    ensures !(r.procs.symInitialize && r.symInitializeOk) ==> r.symOptions == s.symOptions
    ensures crashDumpPath.None? ==>
              r == s.(procs := r.procs, symInitializeOk := r.symInitializeOk, symOptions := r.symOptions)
    ensures crashDumpPath.Some? ==>
              && r.crashDumpPath == crashDumpPath && r.crashTxtPath == crashTxtPath
              && (!s.dumpEvent && !s.dumpThread ==> r.dumpEvent && r.dumpThread && r.filterRegistered)
    ensures s.dumpEvent || s.dumpThread || crashDumpPath.None? ==>
              r.dumpEvent == s.dumpEvent && r.dumpThread == s.dumpThread && r.filterRegistered == s.filterRegistered
    ensures r.eventsCreated == s.eventsCreated + (if crashDumpPath.Some? && !s.dumpEvent && !s.dumpThread then 1 else 0)
    ensures r.workersCreated == s.workersCreated + (if crashDumpPath.Some? && !s.dumpEvent && !s.dumpThread then 1 else 0)
    ensures SameFaultRecord(r, s)
  {
    var procs := LoadDbgHelpFuncs(s.procs, o.exports);
    var symOk := if procs.symInitialize then o.symInitializeResult else s.symInitializeOk;
    var symOptions :=
      if procs.symInitialize && symOk
      then Some(WithCrashSymOptions(o.currentSymOptions))
      else s.symOptions;
    var s1 := s.(procs := procs, symInitializeOk := symOk, symOptions := symOptions);
    if crashDumpPath.None? then s1
    else
      var s2 := s1.(crashDumpPath := crashDumpPath, crashTxtPath := crashTxtPath);
      if !s2.dumpEvent && !s2.dumpThread then
        s2.(dumpEvent := true, dumpThread := true, filterRegistered := true,
            eventsCreated := s2.eventsCreated + 1, workersCreated := s2.workersCreated + 1)
      else s2
  }

  /** The filter's return value and the state it leaves. */
  datatype HandlerResult = HandlerResult(state: CrashState, code: int)

  /** A fault the handler acts on: a non-null record that is not a breakpoint. */
  predicate Actionable(exc: Option<ExceptionRecord>)
  {
    exc.Some? && exc.value.code != ExceptionBreakpoint
  }

  /** DumpExceptionHandler: breakpoints and NULL records pass straight through
      without touching the one-shot flag; a second fault passes straight
      through; the first fault records the faulting thread and record and runs
      the dump worker (when one exists) to completion. Every path continues
      the search. */
  function DumpExceptionHandler(s: CrashState, exc: Option<ExceptionRecord>, currentTid: nat, w: WorkerOracle)
    : (r: HandlerResult)
    ensures r.code == ExceptionContinueSearch
    ensures !Actionable(exc) || s.wasHere ==> r.state == s
    ensures Actionable(exc) && !s.wasHere ==>
              && r.state.wasHere
              && r.state.threadId == currentTid
              && r.state.exceptionPointers == exc
              && |r.state.runs| == |s.runs| + (if s.dumpEvent && s.dumpThread then 1 else 0)
              && r.state.runs[..|s.runs|] == s.runs
              && r.state == s.(wasHere := true, threadId := currentTid, exceptionPointers := exc,
                               procs := r.state.procs, runs := r.state.runs)
    ensures Actionable(exc) && !s.wasHere && s.dumpEvent && s.dumpThread ==>
              && r.state.runs[|s.runs|] == CrashDumpThread(s.procs, w, s.crashTxtPath, currentTid, exc)
              && r.state.procs == r.state.runs[|s.runs|].procs
    ensures !(s.dumpEvent && s.dumpThread) ==> r.state.procs == s.procs
    ensures |r.state.runs| > |s.runs| ==>
              var outcome := r.state.runs[|s.runs|];
              outcome.dump.Some? ==> outcome.dump.value.threadId == currentTid && outcome.dump.value.exception == exc
    ensures r.state.crashDumpPath == s.crashDumpPath && r.state.crashTxtPath == s.crashTxtPath
    ensures r.state.eventsCreated == s.eventsCreated && r.state.workersCreated == s.workersCreated
    ensures r.state.filterRegistered == s.filterRegistered
  {
    if !Actionable(exc) || s.wasHere then HandlerResult(s, ExceptionContinueSearch)
    else
      var s1 := s.(wasHere := true, threadId := currentTid, exceptionPointers := exc);
      if s1.dumpEvent && s1.dumpThread then
        var outcome := CrashDumpThread(s1.procs, w, s1.crashTxtPath, s1.threadId, s1.exceptionPointers);
        HandlerResult(s1.(procs := outcome.procs, runs := s1.runs + [outcome]), ExceptionContinueSearch)
      else
        HandlerResult(s1, ExceptionContinueSearch)
  }

  /** What the process can do to the crash handler. */
  datatype HostEvent =
    | Install(crashDumpPath: Option<string>, crashTxtPath: Option<string>, installOracle: InstallOracle)
    | Fault(exc: Option<ExceptionRecord>, faultingTid: nat, workerOracle: WorkerOracle)

  /** One event. The handler only sees a fault once the filter is registered. */
  function Step(s: CrashState, e: HostEvent): CrashState
  {
    match e
    case Install(dumpPath, txtPath, o) => InstallCrashHandler(s, dumpPath, txtPath, o)
    case Fault(exc, tid, w) => if s.filterRegistered then DumpExceptionHandler(s, exc, tid, w).state else s
  }

  function Run(s: CrashState, events: seq<HostEvent>): CrashState
    decreases |events|
  {
    if events == [] then s else Run(Step(s, events[0]), events[1..])
  }

  /** The invariant of the handler state: the event, the worker and the filter
      come into existence together and exactly once, and a dump sequence runs
      only after the one-shot flag is set, at most once. */
  predicate Valid(s: CrashState)
  {
    && s.dumpEvent == s.dumpThread == s.filterRegistered
    && s.eventsCreated == (if s.dumpEvent then 1 else 0)
    && s.workersCreated == (if s.dumpThread then 1 else 0)
    && |s.runs| <= (if s.wasHere then 1 else 0)
    && (s.filterRegistered ==> s.crashDumpPath.Some?)
  }

  lemma StepPreservesValid(s: CrashState, e: HostEvent)
    requires Valid(s)
    ensures Valid(Step(s, e))
  {
  }

  lemma {:induction false} RunPreservesValid(s: CrashState, events: seq<HostEvent>)
    requires Valid(s)
    ensures Valid(Run(s, events))
    decreases |events|
  {
    if events != [] {
      StepPreservesValid(s, events[0]);
      RunPreservesValid(Step(s, events[0]), events[1..]);
    }
  }

  /** For any sequence of installs and faults handled one at a time, at most
      one dump sequence runs, and the event and the worker are each created at
      most once. */
  lemma AtMostOneDumpSequence(events: seq<HostEvent>)
    ensures |Run(Initial, events).runs| <= 1
    ensures Run(Initial, events).eventsCreated <= 1
    ensures Run(Initial, events).workersCreated <= 1
  {
    RunPreservesValid(Initial, events);
  }

  /** Once the one-shot flag is set, nothing that follows changes the recorded
      thread, the recorded exception or the completed dump sequences. */
  lemma {:induction false} RecordedFaultIsFinal(s: CrashState, events: seq<HostEvent>)
    requires s.wasHere
    ensures SameFaultRecord(Run(s, events), s)
    decreases |events|
  {
    if events != [] {
      var s1 := Step(s, events[0]);
      assert SameFaultRecord(s1, s);
      RecordedFaultIsFinal(s1, events[1..]);
    }
  }

  /** Installs that pass no dump path never register the filter, so no fault
      is ever recorded and no dump sequence runs. */
  lemma {:induction false} NoDumpPathNoHandler(s: CrashState, events: seq<HostEvent>)
    requires !s.filterRegistered && !s.dumpEvent && !s.dumpThread
    requires forall i | 0 <= i < |events| :: events[i].Install? ==> events[i].crashDumpPath.None?
    ensures var r := Run(s, events);
            !r.filterRegistered && !r.dumpEvent && !r.dumpThread && SameFaultRecord(r, s)
    decreases |events|
  {
    if events != [] {
      NoDumpPathNoHandler(Step(s, events[0]), events[1..]);
    }
  }

  /** After a successful install, the first actionable fault is the one
      recorded, whatever events follow it one at a time, and exactly one dump
      sequence ran, for that thread and that record. */
  lemma FirstFaultWins(s: CrashState, exc: Option<ExceptionRecord>, tid: nat, w: WorkerOracle,
                       later: seq<HostEvent>)
    requires Valid(s) && s.filterRegistered && !s.wasHere
    requires Actionable(exc)
    ensures var r := Run(s, [Fault(exc, tid, w)] + later);
            && r.wasHere && r.threadId == tid && r.exceptionPointers == exc
            && |r.runs| == 1
            && (r.runs[0].dump.Some? ==> r.runs[0].dump.value.threadId == tid && r.runs[0].dump.value.exception == exc)
  {
    var events := [Fault(exc, tid, w)] + later;
    assert events[0] == Fault(exc, tid, w) && events[1..] == later;
    var s1 := Step(s, events[0]);
    RecordedFaultIsFinal(s1, later);
  }
}

=== FILE: minidump.dfy ===
/**
 The dump writer: the module-filtering callback handed to MiniDumpWriteDump,
 the dump detail level, and the control flow of the dump worker thread.
 */
module MiniDump {
  import opened Win32
  import opened DbgHelp
  import opened ExceptionCodes

  // MINIDUMP_CALLBACK_TYPE values (dbghelp.h).
  const ModuleCallback: nat := 0
  const ThreadCallback: nat := 1
  const ThreadExCallback: nat := 2
  const IncludeThreadCallback: nat := 3
  const IncludeModuleCallback: nat := 4

  // MODULE_WRITE_FLAGS bits (dbghelp.h).
  const ModuleWriteModule: bv32 := 0x0001
  const ModuleReferencedByMemory: bv32 := 0x0010

  datatype CallbackInput = CallbackInput(callbackType: nat)
  datatype CallbackOutput = CallbackOutput(moduleWriteFlags: bv32)

  /** The callback's BOOL and what its output record holds afterwards. */
  datatype CallbackResult = CallbackResult(ok: bool, output: Option<CallbackOutput>)

  /** The flag update for a module callback: drop ModuleWriteModule unless the
      module is referenced by memory. */
  function FilterModuleFlags(flags: bv32): (r: bv32)
    ensures r & !ModuleWriteModule == flags & !ModuleWriteModule
    ensures r & ModuleWriteModule != 0 <==> flags & ModuleWriteModule != 0 && flags & ModuleReferencedByMemory != 0
    ensures r != flags ==> flags & ModuleReferencedByMemory == 0 && flags & ModuleWriteModule != 0
  {
    if flags & ModuleReferencedByMemory == 0 then flags & !ModuleWriteModule else flags
  }

  /** The callback kinds the filter answers TRUE to. */
  predicate AcceptedCallback(kind: nat)
  {
    kind == ModuleCallback || kind == IncludeModuleCallback || kind == IncludeThreadCallback
    || kind == ThreadCallback || kind == ThreadExCallback
  }

  /** OpenMiniDumpCallback: NULL input or output is refused; a module not
      referenced by memory loses its ModuleWriteModule bit; module, include and
      thread callbacks are accepted; every other callback is refused. */
  function OpenMiniDumpCallback(input: Option<CallbackInput>, output: Option<CallbackOutput>): (r: CallbackResult)
    ensures input.None? || output.None? ==> !r.ok && r.output == output
    ensures r.output.Some? <==> output.Some?
    ensures input.Some? && output.Some? && input.value.callbackType == ModuleCallback ==>
              r.output == Some(CallbackOutput(FilterModuleFlags(output.value.moduleWriteFlags)))
    ensures input.None? || output.None? || input.value.callbackType != ModuleCallback ==> r.output == output
    ensures input.Some? && output.Some? ==>
              (r.ok <==> AcceptedCallback(input.value.callbackType))
  {
    if input.None? || output.None? then CallbackResult(false, output)
    else
      var kind := input.value.callbackType;
      var flags := output.value.moduleWriteFlags;
      if kind == ModuleCallback then
        CallbackResult(true, Some(CallbackOutput(FilterModuleFlags(flags))))
      else if kind == IncludeModuleCallback || kind == IncludeThreadCallback
              || kind == ThreadCallback || kind == ThreadExCallback then
        CallbackResult(true, output)
      else
        CallbackResult(false, output)
  }

  /** A module callback keeps the module exactly when memory references it,
      and asking a second time changes nothing. */
  lemma ModuleFilterKeepsReferenced(flags: bv32)
    ensures var r := OpenMiniDumpCallback(Some(CallbackInput(ModuleCallback)), Some(CallbackOutput(flags)));
            && r.ok
            && (r.output.value.moduleWriteFlags & ModuleWriteModule != 0 <==>
                  flags & ModuleWriteModule != 0 && flags & ModuleReferencedByMemory != 0)
            && r.output.value.moduleWriteFlags & ModuleReferencedByMemory == flags & ModuleReferencedByMemory
            && OpenMiniDumpCallback(Some(CallbackInput(ModuleCallback)), r.output) == r
  {
  }

  // MINIDUMP_TYPE bits (dbghelp.h).
  const MiniDumpNormal: bv32 := 0x0000
  const MiniDumpWithDataSegs: bv32 := 0x0001
  const MiniDumpWithFullMemory: bv32 := 0x0002
  const MiniDumpWithHandleData: bv32 := 0x0004
  const MiniDumpScanMemory: bv32 := 0x0010
  const MiniDumpWithIndirectlyReferencedMemory: bv32 := 0x0040
  const MiniDumpWithPrivateReadWriteMemory: bv32 := 0x0200

  const DefaultDumpType: bv32 := MiniDumpNormal | MiniDumpWithIndirectlyReferencedMemory | MiniDumpScanMemory
  const FullDumpExtras: bv32 := MiniDumpWithDataSegs | MiniDumpWithHandleData | MiniDumpWithPrivateReadWriteMemory

  /** The dump type the worker requests; `fullDumpEnv` says whether the
      SUMATRAPDF_FULLDUMP environment variable is present. */
  function DumpType(fullDumpEnv: bool): (r: bv32)
    ensures r & DefaultDumpType == DefaultDumpType
    ensures r & !(DefaultDumpType | FullDumpExtras) == 0
    ensures r & MiniDumpWithDataSegs != 0 <==> fullDumpEnv
    ensures r & MiniDumpWithHandleData != 0 <==> fullDumpEnv
    ensures r & MiniDumpWithPrivateReadWriteMemory != 0 <==> fullDumpEnv
    ensures r & MiniDumpWithFullMemory == 0
  {
    var t := DefaultDumpType;
    if fullDumpEnv then t | FullDumpExtras else t
  }

  /** The escalated dump type is a strict superset of the default one. */
  lemma EscalationIsStrictSuperset()
    ensures DumpType(false) & DumpType(true) == DumpType(false)
    ensures DumpType(false) != DumpType(true)
    ensures DumpType(false) == 0x50 && DumpType(true) == 0x255
  {
  }

  /** The MiniDumpWriteDump call: detail level, recorded faulting thread and
      exception record. */
  datatype DumpRequest = DumpRequest(dumpType: bv32, threadId: nat, exception: Option<ExceptionRecord>)

  /** What one run of the dump worker did. */
  datatype WorkerOutcome = WorkerOutcome(procs: Procs, dump: Option<DumpRequest>, textReportWritten: bool)

  /** The host answers the worker depends on. */
  datatype WorkerOracle = WorkerOracle(exports: Procs, dumpFileCreated: bool, fullDumpEnv: bool)

  /** CrashDumpThread after its wake-up: bind DBGHELP.DLL, give up when
      MiniDumpWriteDump is missing or the dump file cannot be created, else
      write the dump and then the text report (when a report path is set).
      The early returns skip the text report too. */
  function CrashDumpThread(procs: Procs, o: WorkerOracle, txtPath: Option<string>,
                           threadId: nat, exception: Option<ExceptionRecord>): (w: WorkerOutcome)
    ensures w.procs == LoadDbgHelpFuncs(procs, o.exports)
    ensures w.dump.Some? <==> w.procs.miniDumpWriteDump && o.dumpFileCreated
    ensures w.dump.Some? ==> w.dump.value.threadId == threadId && w.dump.value.exception == exception
    ensures w.dump.Some? ==> w.dump.value.dumpType == DumpType(o.fullDumpEnv)
    ensures w.textReportWritten <==> w.dump.Some? && txtPath.Some?
  {
    var p := LoadDbgHelpFuncs(procs, o.exports);
    if !p.miniDumpWriteDump || !o.dumpFileCreated then WorkerOutcome(p, None, false)
    else WorkerOutcome(p, Some(DumpRequest(DumpType(o.fullDumpEnv), threadId, exception)), txtPath.Some?)
  }

  /** No text report is produced unless a dump was requested first. */
  lemma TextReportNeedsDump(procs: Procs, o: WorkerOracle, txtPath: Option<string>,
                            threadId: nat, exception: Option<ExceptionRecord>)
    ensures var w := CrashDumpThread(procs, o, txtPath, threadId, exception);
            w.textReportWritten ==> w.dump.Some? && w.procs.miniDumpWriteDump && o.dumpFileCreated
    ensures !o.dumpFileCreated ==> !CrashDumpThread(procs, o, txtPath, threadId, exception).textReportWritten
  {
  }
}

=== FILE: os_version.dfy ===
/**
 The OS identity line of the crash report: the label chosen from the host's
 version record, and the fields of the "OS:" line built from it.
 */
module OsVersion {
  import opened Win32

  /** VER_PLATFORM_WIN32_NT */
  const PlatformWin32Nt: Dword := 2

  /** The fields of OSVERSIONINFOEX the report reads. */
  datatype VersionInfo = VersionInfo(
    platformId: Dword,
    majorVersion: Dword,
    minorVersion: Dword,
    buildNumber: Dword,
    servicePackMajor: nat,
    servicePackMinor: nat)

  /** Every label OsNameFromVer can produce ("Sever" is the program's spelling). */
  const OsLabels: set<string> := {"Unknown", "7", "Vista", "Sever 2003", "XP", "2000", "9xOrNT"}

  /** The NT releases recognised by exact (major, minor) version. */
  const NamedReleases: map<(nat, nat), string> :=
    map[(6, 1) := "7", (6, 0) := "Vista", (5, 2) := "Sever 2003", (5, 1) := "XP", (5, 0) := "2000"]

  /** OsNameFromVer: total, and always one of the fixed non-empty labels. */
  function OsNameFromVer(ver: VersionInfo): (r: string)
    ensures r in OsLabels
    ensures r != []
  {
    if ver.platformId != PlatformWin32Nt then "Unknown"
    // Windows 7 beta 1 reports the same major version as Vista.
    else if ver.majorVersion == 6 && ver.minorVersion == 1 then "7"
    else if ver.majorVersion == 6 && ver.minorVersion == 0 then "Vista"
    else if ver.majorVersion == 5 && ver.minorVersion == 2 then "Sever 2003"
    else if ver.majorVersion == 5 && ver.minorVersion == 1 then "XP"
    else if ver.majorVersion == 5 && ver.minorVersion == 0 then "2000"
    else if ver.majorVersion <= 4 then "9xOrNT"
    else "Unknown"
  }

  /** The if-ladder agrees with the table of named releases: a named NT release
      gets its name, any other NT version up to major 4 is "9xOrNT", and
      everything else is "Unknown". */
  lemma OsNameMatchesReleaseTable(ver: VersionInfo)
    ensures ver.platformId != PlatformWin32Nt ==> OsNameFromVer(ver) == "Unknown"
    ensures ver.platformId == PlatformWin32Nt && (ver.majorVersion, ver.minorVersion) in NamedReleases ==>
              OsNameFromVer(ver) == NamedReleases[(ver.majorVersion, ver.minorVersion)]
    ensures ver.platformId == PlatformWin32Nt && (ver.majorVersion, ver.minorVersion) !in NamedReleases ==>
              OsNameFromVer(ver) == (if ver.majorVersion <= 4 then "9xOrNT" else "Unknown")
  {
  }

  /** "Unknown" is produced exactly for non-NT platforms and for NT versions
      newer than 4 that are not a named release (Windows 8, 6.2, among them). */
  lemma UnknownExactly(ver: VersionInfo)
    ensures OsNameFromVer(ver) == "Unknown" <==>
              ver.platformId != PlatformWin32Nt
              || (ver.majorVersion > 4 && (ver.majorVersion, ver.minorVersion) !in NamedReleases)
  {
  }

  /** The fields of the "OS:" line. */
  datatype OsLine = OsLine(
    os: string,
    servicePackMajor: nat,
    servicePackMinor: nat,
    buildNumber: nat,
    bitness: string,
    wow: string)

  /** GetOsVersion: nothing when GetVersionEx fails; otherwise the label, the
      service-pack levels, the low 16 bits of the build number, and the bitness
      and WOW64 words. `is64Bit` and `isWow64` are the host's answers. */
  function GetOsVersion(versionOk: bool, ver: VersionInfo, is64Bit: bool, isWow64: bool): (r: Option<OsLine>)
    ensures r.None? <==> !versionOk
    ensures r.Some? ==> r.value.os == OsNameFromVer(ver)
    ensures r.Some? ==> r.value.buildNumber < 0x1_0000 && (ver.buildNumber - r.value.buildNumber) % 0x1_0000 == 0
    ensures r.Some? ==> r.value.servicePackMajor == ver.servicePackMajor && r.value.servicePackMinor == ver.servicePackMinor
    ensures r.Some? ==> (r.value.wow == "Wow64" <==> isWow64) && (!isWow64 ==> r.value.wow == [])
  {
    if !versionOk then None
    else
      Some(OsLine(
        OsNameFromVer(ver),
        ver.servicePackMajor,
        ver.servicePackMinor,
        ver.buildNumber % 0x1_0000,
        if is64Bit then "32bit" else "64bit",
        if isWow64 then "Wow64" else ""))
  }

  /** The bitness word is inverted: a 64-bit host is labelled "32bit" and any
      other host "64bit". */
  lemma BitnessLabelInverted(ver: VersionInfo, is64Bit: bool, isWow64: bool)
    ensures GetOsVersion(true, ver, is64Bit, isWow64).value.bitness == "32bit" <==> is64Bit
    ensures GetOsVersion(true, ver, is64Bit, isWow64).value.bitness == "64bit" <==> !is64Bit
  {
  }
}

=== FILE: pe_sections.dfy ===
/**
 The structural fallback of the address resolver: finding which section of a
 loaded PE image holds an address. The image's section table is an input; the
 arithmetic is the source's 32-bit DWORD arithmetic.
 */
module PeSections {
  import opened Win32

  /** The three fields of IMAGE_SECTION_HEADER the lookup reads. */
  datatype SectionHeader = SectionHeader(virtualAddress: Dword, sizeOfRawData: Dword, virtualSize: Dword)

  /** A loaded module as GetAddrInfo sees it: its allocation base (truncated to
      a DWORD), its file name and its section table. */
  datatype ModuleImage = ModuleImage(base: Dword, path: string, sections: seq<SectionHeader>)

  /** A successful lookup: 1-based section number and offset into the section. */
  datatype SectionHit = SectionHit(section: nat, offset: Dword)

  /** What GetAddrInfo reports. */
  datatype AddrInfo = AddrInfo(modulePath: string, section: nat, offset: Dword)

  /** The address relative to the module base, in DWORD arithmetic. */
  function RelativeAddress(addr: nat, base: Dword): (r: Dword)
    ensures (base + r - addr) % DwordModulus == 0
  {
    ToDword(ToDword(addr) - base)
  }

  /** The last relative address the lookup accepts for a section. The virtual
      size is compared against but never added: when the raw size is not
      larger, the range collapses to the section's first byte. The addition
      wraps like DWORD arithmetic. */
  function SectionEnd(h: SectionHeader): Dword
  {
    if h.sizeOfRawData > h.virtualSize then ToDword(h.virtualAddress + h.sizeOfRawData)
    else h.virtualAddress
  }

  /** The inclusive range test of the lookup loop. */
  predicate Contains(h: SectionHeader, lAddr: Dword)
  {
    h.virtualAddress <= lAddr <= SectionEnd(h)
  }

  /** Reference definition: the first section at or after index `i` whose range
      holds `lAddr`. */
  function FirstSectionFrom(sections: seq<SectionHeader>, lAddr: Dword, i: nat): (r: Option<SectionHit>)
    requires i <= |sections|
    decreases |sections| - i
    ensures r.Some? ==>
              && i < r.value.section <= |sections|
              && Contains(sections[r.value.section - 1], lAddr)
              && r.value.offset == lAddr - sections[r.value.section - 1].virtualAddress
              && forall j | i <= j < r.value.section - 1 :: !Contains(sections[j], lAddr)
    ensures r.None? ==> forall j | i <= j < |sections| :: !Contains(sections[j], lAddr)
  {
    if i == |sections| then None
    else if Contains(sections[i], lAddr) then Some(SectionHit(i + 1, lAddr - sections[i].virtualAddress))
    else FirstSectionFrom(sections, lAddr, i + 1)
  }

  function FirstSection(sections: seq<SectionHeader>, lAddr: Dword): Option<SectionHit>
  {
    FirstSectionFrom(sections, lAddr, 0)
  }

  /** The section loop of GetAddrInfo. `sectionIn` and `offsetIn` are the
      caller's variables, which are left as they were when no section matches. */
  method FindSection(sections: seq<SectionHeader>, lAddr: Dword, sectionIn: nat, offsetIn: Dword)
    returns (found: bool, sectionOut: nat, offsetOut: Dword)
    ensures found <==> exists j | 0 <= j < |sections| :: Contains(sections[j], lAddr)
    ensures found ==>
              && 1 <= sectionOut <= |sections|
              && Contains(sections[sectionOut - 1], lAddr)
              && offsetOut == lAddr - sections[sectionOut - 1].virtualAddress
              && forall j | 0 <= j < sectionOut - 1 :: !Contains(sections[j], lAddr)
    ensures !found ==> sectionOut == sectionIn && offsetOut == offsetIn
    ensures FirstSection(sections, lAddr) == if found then Some(SectionHit(sectionOut, offsetOut)) else None
  {
    var i := 0;
    while i < |sections|
      invariant 0 <= i <= |sections|
      invariant forall j | 0 <= j < i :: !Contains(sections[j], lAddr)
      invariant FirstSection(sections, lAddr) == FirstSectionFrom(sections, lAddr, i)
    {
      var startAddr := sections[i].virtualAddress;
      var endAddr := startAddr;
      if sections[i].sizeOfRawData > sections[i].virtualSize {
        endAddr := ToDword(endAddr + sections[i].sizeOfRawData);
      }
      if lAddr >= startAddr && lAddr <= endAddr {
        return true, i + 1, lAddr - startAddr;
      }
      i := i + 1;
    }
    return false, sectionIn, offsetIn;
  }

  /** GetAddrInfo with the host queries replaced by `image`: None when
      VirtualQuery or GetModuleFileNameA fails for the address. */
  function GetAddrInfo(addr: nat, image: Option<ModuleImage>): (r: Option<AddrInfo>)
    ensures image.None? ==> r.None?
    ensures image.Some? ==>
              (r.Some? <==> exists j | 0 <= j < |image.value.sections| ::
                              Contains(image.value.sections[j], RelativeAddress(addr, image.value.base)))
    ensures r.Some? ==> r.value.modulePath == image.value.path && 1 <= r.value.section <= |image.value.sections|
    ensures r.Some? ==>
              var l := RelativeAddress(addr, image.value.base);
              var k := r.value.section - 1;
              && Contains(image.value.sections[k], l)
              && r.value.offset == l - image.value.sections[k].virtualAddress
              && forall j | 0 <= j < k :: !Contains(image.value.sections[j], l)
  {
    match image
    case None => None
    case Some(m) =>
      match FirstSection(m.sections, RelativeAddress(addr, m.base))
      case None => None
      case Some(hit) => Some(AddrInfo(m.path, hit.section, hit.offset))
  }

  /** The reported section and offset locate the address: module base plus
      the section's virtual address plus the offset is the address, modulo 2^32. */
  lemma GetAddrInfoLocatesAddress(addr: nat, m: ModuleImage)
    requires GetAddrInfo(addr, Some(m)).Some?
    ensures var info := GetAddrInfo(addr, Some(m)).value;
            (m.base + m.sections[info.section - 1].virtualAddress + info.offset - addr) % DwordModulus == 0
  {
    var info := GetAddrInfo(addr, Some(m)).value;
    var l := RelativeAddress(addr, m.base);
    assert m.sections[info.section - 1].virtualAddress + info.offset == l;
  }

  /** The ignored virtual size: a section whose raw size does not exceed its
      virtual size matches only the relative address of its first byte. */
  lemma CollapsedSectionMatchesOnlyStart(h: SectionHeader, lAddr: Dword)
    requires h.sizeOfRawData <= h.virtualSize
    ensures Contains(h, lAddr) <==> lAddr == h.virtualAddress
  {
  }

  /** A section whose end wraps past 2^32 matches nothing. */
  lemma WrappedSectionMatchesNothing(h: SectionHeader, lAddr: Dword)
    requires h.sizeOfRawData > h.virtualSize
    requires h.virtualAddress + h.sizeOfRawData >= DwordModulus
    ensures !Contains(h, lAddr)
  {
  }

  /** The upper bound is inclusive: the byte just past the raw data matches. */
  lemma EndIsInclusive(h: SectionHeader)
    requires h.sizeOfRawData > h.virtualSize
    requires h.virtualAddress + h.sizeOfRawData < DwordModulus
    ensures Contains(h, h.virtualAddress + h.sizeOfRawData)
  {
  }
}

=== FILE: stack_walk.dfy ===
/**
 The stack walker and the address-resolution ladder used for each frame. The
 host unwinder, the symbol engine and the address-space queries are oracles:
 `unwinder[k]` is the program counter StackWalk64 yields on its k-th call, or
 None when that call fails.
 */
module StackWalk {
  import opened Win32
  import opened DbgHelp
  import opened PeSections

  const MaxFrames: nat := 32

  /** A SymFromAddr answer: symbol name and 64-bit displacement. */
  datatype Symbol = Symbol(name: string, displacement: nat)

  /** The three rungs of the ladder. The symbol displacement is printed after a
      cast to int, i.e. as its low 32 bits. The last rung prints the literal
      line "%08X": its format escapes the percent sign, so it carries no
      address. */
  datatype FrameLabel =
    | SymbolLabel(name: string, displacement: Dword)
    | SectionLabel(modulePath: string, section: nat, offset: Dword)
    | RawFallback

  datatype Frame = Frame(pc: nat, frameLabel: FrameLabel)

  /** The symbol engine and address-space queries, per address. */
  datatype SymbolHost = SymbolHost(symbolAt: nat -> Option<Symbol>, imageAt: nat -> Option<ModuleImage>)

  /** The label of one frame: the symbol when SymFromAddr succeeds, else the
      module section and offset when GetAddrInfo succeeds, else the raw line. */
  function ResolveFrame(host: SymbolHost, addr: nat): (l: FrameLabel)
    ensures l.SymbolLabel? <==> host.symbolAt(addr).Some?
    ensures l.SymbolLabel? ==>
              l.name == host.symbolAt(addr).value.name
              && (host.symbolAt(addr).value.displacement - l.displacement) % DwordModulus == 0
    ensures l.SectionLabel? <==> host.symbolAt(addr).None? && GetAddrInfo(addr, host.imageAt(addr)).Some?
    ensures l.SectionLabel? ==>
              var info := GetAddrInfo(addr, host.imageAt(addr)).value;
              l.modulePath == info.modulePath && l.section == info.section && l.offset == info.offset
    ensures l.RawFallback? <==> host.symbolAt(addr).None? && GetAddrInfo(addr, host.imageAt(addr)).None?
  {
    match host.symbolAt(addr)
    case Some(sym) => SymbolLabel(sym.name, ToDword(sym.displacement))
    case None =>
      match GetAddrInfo(addr, host.imageAt(addr))
      case Some(info) => SectionLabel(info.modulePath, info.section, info.offset)
      case None => RawFallback
  }

  /** The raw fallback forgets the address: any two unresolvable addresses get
      the same label. */
  lemma RawFallbackForgetsAddress(host: SymbolHost, a: nat, b: nat)
    requires host.symbolAt(a).None? && GetAddrInfo(a, host.imageAt(a)).None?
    requires host.symbolAt(b).None? && GetAddrInfo(b, host.imageAt(b)).None?
    ensures ResolveFrame(host, a) == ResolveFrame(host, b) == RawFallback
  {
  }

  /** The number of leading successful unwind steps. */
  function UnwoundDepth(unwinder: seq<Option<nat>>): (n: nat)
    ensures n <= |unwinder|
    ensures forall i | 0 <= i < n :: unwinder[i].Some?
    ensures n < |unwinder| ==> unwinder[n].None?
  {
    if unwinder == [] || unwinder[0].None? then 0
    else 1 + UnwoundDepth(unwinder[1..])
  }

  function Min(a: nat, b: nat): nat
  {
    if a <= b then a else b
  }

  /** Reference definition of the walk from step `k` on: one resolved frame
      per successful unwind step, stopping at the first failure or at the
      frame cap. */
  function WalkFrom(host: SymbolHost, unwinder: seq<Option<nat>>, k: nat): seq<Frame>
    requires k <= MaxFrames
    decreases MaxFrames - k
  {
    if k == MaxFrames || k >= |unwinder| || unwinder[k].None? then []
    else [Frame(unwinder[k].value, ResolveFrame(host, unwinder[k].value))] + WalkFrom(host, unwinder, k + 1)
  }

  /** The frames the walker reports for a thread. */
  function Callstack(canWalk: bool, host: SymbolHost, unwinder: seq<Option<nat>>): seq<Frame>
  {
    if canWalk then WalkFrom(host, unwinder, 0) else []
  }

  /** The walk from step `k` holds exactly the resolved frames of the
      successful steps from `k` up to the first failure or the cap. */
  lemma {:induction false} WalkFromFrames(host: SymbolHost, unwinder: seq<Option<nat>>, k: nat)
    requires k <= Min(MaxFrames, UnwoundDepth(unwinder))
    ensures |WalkFrom(host, unwinder, k)| == Min(MaxFrames, UnwoundDepth(unwinder)) - k
    ensures forall i | 0 <= i < |WalkFrom(host, unwinder, k)| ::
              WalkFrom(host, unwinder, k)[i] == Frame(unwinder[k + i].value, ResolveFrame(host, unwinder[k + i].value))
    decreases MaxFrames - k
  {
    if k < Min(MaxFrames, UnwoundDepth(unwinder)) {
      WalkFromFrames(host, unwinder, k + 1);
      var rest := WalkFrom(host, unwinder, k + 1);
      assert WalkFrom(host, unwinder, k) == [Frame(unwinder[k].value, ResolveFrame(host, unwinder[k].value))] + rest;
      forall i | 1 <= i < |WalkFrom(host, unwinder, k)|
        ensures WalkFrom(host, unwinder, k)[i] == Frame(unwinder[k + i].value, ResolveFrame(host, unwinder[k + i].value))
      {
        assert WalkFrom(host, unwinder, k)[i] == rest[i - 1];
      }
    }
  }

  /** GetCallstack: nothing when CanStackWalk fails; otherwise one frame per
      successful unwind step, at most 32, stopping at the first failure, each
      labelled by the resolution ladder. */
  method GetCallstack(symInitializeOk: bool, procs: Procs, host: SymbolHost, unwinder: seq<Option<nat>>)
    returns (frames: seq<Frame>)
    ensures !CanStackWalk(symInitializeOk, procs) ==> frames == []
    ensures CanStackWalk(symInitializeOk, procs) ==> |frames| == Min(MaxFrames, UnwoundDepth(unwinder))
    ensures |frames| <= MaxFrames
    ensures forall i | 0 <= i < |frames| ::
              unwinder[i].Some? && frames[i] == Frame(unwinder[i].value, ResolveFrame(host, unwinder[i].value))
    ensures frames == Callstack(CanStackWalk(symInitializeOk, procs), host, unwinder)
  {
    frames := [];
    if !CanStackWalk(symInitializeOk, procs) {
      return;
    }
    WalkFromFrames(host, unwinder, 0);
    var framesCount := 0;
    while framesCount < MaxFrames
      invariant framesCount <= Min(MaxFrames, UnwoundDepth(unwinder))
      invariant |frames| == framesCount
      invariant forall i | 0 <= i < framesCount ::
                  unwinder[i].Some? && frames[i] == Frame(unwinder[i].value, ResolveFrame(host, unwinder[i].value))
      decreases MaxFrames - framesCount
    {
      if framesCount >= |unwinder| || unwinder[framesCount].None? {
        break;
      }
      var addr := unwinder[framesCount].value;
      frames := frames + [Frame(addr, ResolveFrame(host, addr))];
      framesCount := framesCount + 1;
    }
    assert |frames| == Min(MaxFrames, UnwoundDepth(unwinder));
  }
}

=== FILE: threads.dfy ===
/**
 Thread enumeration for the report: every other thread of the process is
 opened, suspended, walked and resumed, one at a time. The host calls are
 oracles and the observable behaviour is a trace of handle events.
 */
module Threads {
  import opened Win32
  import opened StackWalk

  /** The host's answers for one thread: OpenThread, SuspendThread and
      GetThreadContext success, and what the unwinder yields on it. */
  datatype ThreadOracle = ThreadOracle(openOk: bool, suspendOk: bool, contextOk: bool, unwinder: seq<Option<nat>>)

  /** One THREADENTRY32 of the toolhelp snapshot, with that thread's oracle. */
  datatype ThreadEntry = ThreadEntry(threadId: nat, ownerPid: nat, host: ThreadOracle)

  /** What the enumeration does to a thread, in order. `Header` is the
      "Thread:" line; the *Failed events are the notes written to the report. */
  datatype ThreadEvent =
    | Header(tid: nat)
    | OpenFailed(tid: nat)
    | Opened(tid: nat)
    | SuspendFailed(tid: nat)
    | Suspended(tid: nat)
    | Walked(tid: nat, frames: seq<Frame>)
    | ContextFailed(tid: nat)
    | Resumed(tid: nat)
    | Closed(tid: nat)

  /** The handles held while replaying a trace: the open thread handle and the
      suspended thread, if any. */
  datatype Holding = Holding(open: Option<nat>, suspended: Option<nat>)

  const Idle := Holding(None, None)

  /** One event of the handle discipline; None when the event is not allowed
      in state `h` (a second open handle, a second suspended thread, resuming
      a thread that is not suspended, closing a handle whose thread is still
      suspended, ...). */
  function Apply(h: Holding, e: ThreadEvent): Option<Holding>
  {
    match e
    case Header(_) => if h == Idle then Some(h) else None
    case OpenFailed(_) => if h == Idle then Some(h) else None
    case Opened(t) => if h == Idle then Some(Holding(Some(t), None)) else None
    case SuspendFailed(t) => if h == Holding(Some(t), None) then Some(h) else None
    case Suspended(t) => if h == Holding(Some(t), None) then Some(Holding(Some(t), Some(t))) else None
    case Walked(t, _) => if h == Holding(Some(t), Some(t)) then Some(h) else None
    case ContextFailed(t) => if h == Holding(Some(t), Some(t)) then Some(h) else None
    case Resumed(t) => if h == Holding(Some(t), Some(t)) then Some(Holding(Some(t), None)) else None
    case Closed(t) => if h == Holding(Some(t), None) then Some(Idle) else None
  }

  /** Replays a trace from `h`; None when some event breaks the discipline. */
  function Replay(h: Holding, trace: seq<ThreadEvent>): Option<Holding>
    decreases |trace|
  {
    if trace == [] then Some(h)
    else
      match Apply(h, trace[0])
      case None => None
      case Some(h') => Replay(h', trace[1..])
  }

  /** A trace in which at most one thread is open and at most one suspended at
      any time, every suspend is resumed before its handle is closed, and
      nothing is left open or suspended at the end. */
  predicate Disciplined(trace: seq<ThreadEvent>)
  {
    Replay(Idle, trace) == Some(Idle)
  }

  /** Replaying a concatenation replays its parts in turn. */
  lemma {:induction false} ReplayAppend(h: Holding, a: seq<ThreadEvent>, b: seq<ThreadEvent>)
    ensures Replay(h, a + b) == if Replay(h, a).None? then None else Replay(Replay(h, a).value, b)
    decreases |a|
  {
    if a != [] {
      assert (a + b)[0] == a[0];
      assert (a + b)[1..] == a[1..] + b;
      match Apply(h, a[0])
      case None =>
      case Some(h') => ReplayAppend(h', a[1..], b);
    } else {
      assert a + b == b;
    }
  }

  /** Disciplined traces compose. */
  lemma DisciplinedAppend(a: seq<ThreadEvent>, b: seq<ThreadEvent>)
    requires Disciplined(a) && Disciplined(b)
    ensures Disciplined(a + b)
  {
    ReplayAppend(Idle, a, b);
  }

  /** GetThreadCallstack: the calling thread is skipped; a thread that cannot
      be opened gets a note; a thread that cannot be suspended gets a note and
      is closed; otherwise its context is captured and walked (or a note
      written), and it is resumed and closed whatever GetThreadContext said. */
  function GetThreadCallstack(canWalk: bool, symbols: SymbolHost, currentTid: nat, tid: nat, o: ThreadOracle)
    : (trace: seq<ThreadEvent>)
    ensures trace == [] <==> tid == currentTid
    ensures trace != [] ==> trace[0] == Header(tid)
    ensures forall e | e in trace :: e.tid == tid
    ensures forall e | e in trace && e.Walked? :: e.frames == Callstack(canWalk, symbols, o.unwinder)
  {
    if tid == currentTid then []
    else if !o.openOk then [Header(tid), OpenFailed(tid)]
    else if !o.suspendOk then [Header(tid), Opened(tid), SuspendFailed(tid), Closed(tid)]
    else
      var captured := if o.contextOk then Walked(tid, Callstack(canWalk, symbols, o.unwinder)) else ContextFailed(tid);
      [Header(tid), Opened(tid), Suspended(tid), captured, Resumed(tid), Closed(tid)]
  }

  /** Resource pairing for one thread: a successfully opened handle is closed
      exactly once, and a successfully suspended thread is resumed exactly
      once, whether or not GetThreadContext succeeded. */
  lemma ThreadTracePairing(canWalk: bool, symbols: SymbolHost, currentTid: nat, tid: nat, o: ThreadOracle)
    ensures var trace := GetThreadCallstack(canWalk, symbols, currentTid, tid, o);
            multiset(trace)[Opened(tid)] == multiset(trace)[Closed(tid)]
            == (if tid != currentTid && o.openOk then 1 else 0)
    ensures var trace := GetThreadCallstack(canWalk, symbols, currentTid, tid, o);
            multiset(trace)[Suspended(tid)] == multiset(trace)[Resumed(tid)]
            == (if tid != currentTid && o.openOk && o.suspendOk then 1 else 0)
  {
  }

  /** The notes: an open failure is noted and nothing is suspended; a suspend
      failure is noted and nothing is resumed; a captured context is walked,
      otherwise noted. */
  lemma ThreadTraceNotes(canWalk: bool, symbols: SymbolHost, currentTid: nat, tid: nat, o: ThreadOracle)
    ensures var trace := GetThreadCallstack(canWalk, symbols, currentTid, tid, o);
            OpenFailed(tid) in trace <==> tid != currentTid && !o.openOk
    ensures var trace := GetThreadCallstack(canWalk, symbols, currentTid, tid, o);
            SuspendFailed(tid) in trace <==> tid != currentTid && o.openOk && !o.suspendOk
    ensures var trace := GetThreadCallstack(canWalk, symbols, currentTid, tid, o);
            Walked(tid, Callstack(canWalk, symbols, o.unwinder)) in trace <==>
              tid != currentTid && o.openOk && o.suspendOk && o.contextOk
    ensures var trace := GetThreadCallstack(canWalk, symbols, currentTid, tid, o);
            ContextFailed(tid) in trace <==> tid != currentTid && o.openOk && o.suspendOk && !o.contextOk
  {
  }

  /** Each thread's trace follows the handle discipline: the resume comes after
      the suspend and before the close, and the close comes last. */
  lemma ThreadTraceDisciplined(canWalk: bool, symbols: SymbolHost, currentTid: nat, tid: nat, o: ThreadOracle)
    ensures Disciplined(GetThreadCallstack(canWalk, symbols, currentTid, tid, o))
  {
    var t := GetThreadCallstack(canWalk, symbols, currentTid, tid, o);
    if tid != currentTid && o.openOk && o.suspendOk {
      var isOpen := Holding(Some(tid), None);
      var held := Holding(Some(tid), Some(tid));
      assert Replay(isOpen, t[5..]) == Some(Idle);
      assert Replay(held, t[4..]) == Some(Idle);
      assert Replay(held, t[3..]) == Some(Idle);
      assert Replay(isOpen, t[2..]) == Some(Idle);
      assert Replay(Idle, t[1..]) == Some(Idle);
    } else if tid != currentTid && o.openOk {
      var isOpen := Holding(Some(tid), None);
      assert Replay(isOpen, t[3..]) == Some(Idle);
      assert Replay(isOpen, t[2..]) == Some(Idle);
      assert Replay(Idle, t[1..]) == Some(Idle);
    } else if tid != currentTid {
      assert Replay(Idle, t[1..]) == Some(Idle);
    }
  }

  /** What one snapshot entry contributes: its thread's trace when process
      `pid` owns it, nothing otherwise. */
  function EntryTrace(canWalk: bool, symbols: SymbolHost, pid: nat, currentTid: nat, x: ThreadEntry): seq<ThreadEvent>
  {
    if x.ownerPid == pid then GetThreadCallstack(canWalk, symbols, currentTid, x.threadId, x.host) else []
  }

  /** The threads of the snapshot visited in order: only those owned by `pid`. */
  function VisitThreads(canWalk: bool, symbols: SymbolHost, pid: nat, currentTid: nat, entries: seq<ThreadEntry>)
    : (trace: seq<ThreadEvent>)
    ensures forall e | e in trace ::
              e.tid != currentTid && exists x | x in entries :: x.ownerPid == pid && x.threadId == e.tid
    ensures forall x | x in entries && x.ownerPid == pid && x.threadId != currentTid :: Header(x.threadId) in trace
  {
    if entries == [] then []
    else
      var x := entries[0];
      var head := EntryTrace(canWalk, symbols, pid, currentTid, x);
      head + VisitThreads(canWalk, symbols, pid, currentTid, entries[1..])
  }

  /** The whole enumeration follows the handle discipline: threads are handled
      one at a time, each suspend is resumed and each open handle closed
      before the next thread is touched. */
  lemma {:induction false} VisitThreadsDisciplined(canWalk: bool, symbols: SymbolHost, pid: nat, currentTid: nat,
                                                   entries: seq<ThreadEntry>)
    ensures Disciplined(VisitThreads(canWalk, symbols, pid, currentTid, entries))
    decreases |entries|
  {
    if entries != [] {
      var x := entries[0];
      var head := EntryTrace(canWalk, symbols, pid, currentTid, x);
      if x.ownerPid == pid {
        ThreadTraceDisciplined(canWalk, symbols, currentTid, x.threadId, x.host);
      }
      VisitThreadsDisciplined(canWalk, symbols, pid, currentTid, entries[1..]);
      DisciplinedAppend(head, VisitThreads(canWalk, symbols, pid, currentTid, entries[1..]));
    }
  }

  /** One thread's trace says nothing about any other thread, and balances
      its own suspends and opens. */
  lemma ThreadTraceBalancedFor(canWalk: bool, symbols: SymbolHost, currentTid: nat, tid: nat, o: ThreadOracle, t: nat)
    ensures var trace := GetThreadCallstack(canWalk, symbols, currentTid, tid, o);
            multiset(trace)[Suspended(t)] == multiset(trace)[Resumed(t)]
            && multiset(trace)[Opened(t)] == multiset(trace)[Closed(t)]
  {
    var trace := GetThreadCallstack(canWalk, symbols, currentTid, tid, o);
    if t == tid {
      ThreadTracePairing(canWalk, symbols, currentTid, tid, o);
    } else {
      assert Suspended(t) !in trace && Resumed(t) !in trace && Opened(t) !in trace && Closed(t) !in trace;
    }
  }

  /** Over the whole enumeration, every thread is resumed as often as it was
      suspended and closed as often as it was opened. */
  lemma {:induction false} VisitThreadsPairing(canWalk: bool, symbols: SymbolHost, pid: nat, currentTid: nat,
                                               entries: seq<ThreadEntry>, t: nat)
    ensures var trace := VisitThreads(canWalk, symbols, pid, currentTid, entries);
            multiset(trace)[Suspended(t)] == multiset(trace)[Resumed(t)]
            && multiset(trace)[Opened(t)] == multiset(trace)[Closed(t)]
    decreases |entries|
  {
    if entries != [] {
      var x := entries[0];
      var head := EntryTrace(canWalk, symbols, pid, currentTid, x);
      var rest := VisitThreads(canWalk, symbols, pid, currentTid, entries[1..]);
      if x.ownerPid == pid {
        ThreadTraceBalancedFor(canWalk, symbols, currentTid, x.threadId, x.host, t);
      }
      VisitThreadsPairing(canWalk, symbols, pid, currentTid, entries[1..], t);
      assert VisitThreads(canWalk, symbols, pid, currentTid, entries) == head + rest;
      assert multiset(head + rest) == multiset(head) + multiset(rest);
    }
  }

  /** The marks the handling of one thread leaves: listed (its header is
      written), opened, suspended, walked (its context was captured), and the
      three notes written when OpenThread, SuspendThread or GetThreadContext
      fails. */
  datatype Stage = Listed | Opening | Suspending | Capturing | OpenRefused | SuspendRefused | ContextRefused

  /** Whether a thread whose host answers are `o` leaves the mark `st`. */
  predicate Reaches(o: ThreadOracle, st: Stage)
  {
    match st
    case Listed => true
    case Opening => o.openOk
    case Suspending => o.openOk && o.suspendOk
    case Capturing => o.openOk && o.suspendOk && o.contextOk
    case OpenRefused => !o.openOk
    case SuspendRefused => o.openOk && !o.suspendOk
    case ContextRefused => o.openOk && o.suspendOk && !o.contextOk
  }

  /** The number of snapshot entries of process `pid` for thread `t` whose host
      answers leave the mark `st`. */
  function OwnedReaching(entries: seq<ThreadEntry>, pid: nat, t: nat, st: Stage): nat
  {
    if entries == [] then 0
    else
      var x := entries[0];
      (if x.ownerPid == pid && x.threadId == t && Reaches(x.host, st) then 1 else 0)
      + OwnedReaching(entries[1..], pid, t, st)
  }

  /** Whether event `e` leaves the mark `st` for thread `t`. */
  predicate Marks(e: ThreadEvent, t: nat, st: Stage)
  {
    && e.tid == t
    && match st
       case Listed => e.Header?
       case Opening => e.Opened?
       case Suspending => e.Suspended?
       case Capturing => e.Walked?
       case OpenRefused => e.OpenFailed?
       case SuspendRefused => e.SuspendFailed?
       case ContextRefused => e.ContextFailed?
  }

  /** The number of events in a trace that leave the mark `st` for thread `t`. */
  function StageCount(trace: seq<ThreadEvent>, t: nat, st: Stage): nat
  {
    if trace == [] then 0
    else (if Marks(trace[0], t, st) then 1 else 0) + StageCount(trace[1..], t, st)
  }

  lemma {:induction false} StageCountAppend(a: seq<ThreadEvent>, b: seq<ThreadEvent>, t: nat, st: Stage)
    ensures StageCount(a + b, t, st) == StageCount(a, t, st) + StageCount(b, t, st)
    decreases |a|
  {
    if a == [] {
      assert a + b == b;
    } else {
      assert (a + b)[0] == a[0];
      assert (a + b)[1..] == a[1..] + b;
      StageCountAppend(a[1..], b, t, st);
    }
  }

  /** The marks the full path (opened and suspended) leaves for thread `t`. */
  lemma FullPathCount(tid: nat, captured: ThreadEvent, t: nat, st: Stage)
    requires captured.tid == tid && (captured.Walked? || captured.ContextFailed?)
    ensures StageCount([Header(tid), Opened(tid), Suspended(tid), captured, Resumed(tid), Closed(tid)], t, st)
            == (if Marks(Header(tid), t, st) then 1 else 0) + (if Marks(Opened(tid), t, st) then 1 else 0)
               + (if Marks(Suspended(tid), t, st) then 1 else 0) + (if Marks(captured, t, st) then 1 else 0)
  {
    var trace := [Header(tid), Opened(tid), Suspended(tid), captured, Resumed(tid), Closed(tid)];
    assert StageCount(trace[5..], t, st) == 0;
    assert StageCount(trace[4..], t, st) == 0;
    assert StageCount(trace[3..], t, st) == (if Marks(captured, t, st) then 1 else 0);
    assert StageCount(trace[2..], t, st) == (if Marks(Suspended(tid), t, st) then 1 else 0) + StageCount(trace[3..], t, st);
    assert StageCount(trace[1..], t, st) == (if Marks(Opened(tid), t, st) then 1 else 0) + StageCount(trace[2..], t, st);
  }

  /** The marks the suspend-failure path leaves for thread `t`. */
  lemma SuspendFailedPathCount(tid: nat, t: nat, st: Stage)
    ensures StageCount([Header(tid), Opened(tid), SuspendFailed(tid), Closed(tid)], t, st)
            == (if Marks(Header(tid), t, st) then 1 else 0) + (if Marks(Opened(tid), t, st) then 1 else 0)
               + (if Marks(SuspendFailed(tid), t, st) then 1 else 0)
  {
    var trace := [Header(tid), Opened(tid), SuspendFailed(tid), Closed(tid)];
    assert StageCount(trace[3..], t, st) == 0;
    assert StageCount(trace[2..], t, st) == (if Marks(SuspendFailed(tid), t, st) then 1 else 0);
    assert StageCount(trace[1..], t, st) == (if Marks(Opened(tid), t, st) then 1 else 0) + StageCount(trace[2..], t, st);
  }

  /** The marks the open-failure path leaves for thread `t`. */
  lemma OpenFailedPathCount(tid: nat, t: nat, st: Stage)
    ensures StageCount([Header(tid), OpenFailed(tid)], t, st)
            == (if Marks(Header(tid), t, st) then 1 else 0) + (if Marks(OpenFailed(tid), t, st) then 1 else 0)
  {
    var trace := [Header(tid), OpenFailed(tid)];
    assert StageCount(trace[1..], t, st) == (if Marks(OpenFailed(tid), t, st) then 1 else 0);
  }

  /** One thread's trace leaves the mark `st` for thread `t` once exactly
      when it is that thread, not the caller, and its host answers take it
      there; it never marks another thread. */
  lemma ThreadTraceReaches(canWalk: bool, symbols: SymbolHost, currentTid: nat, tid: nat, o: ThreadOracle,
                           t: nat, st: Stage)
    ensures StageCount(GetThreadCallstack(canWalk, symbols, currentTid, tid, o), t, st)
            == if t == tid && t != currentTid && Reaches(o, st) then 1 else 0
  {
    if tid == currentTid {
    } else if !o.openOk {
      OpenFailedPathCount(tid, t, st);
    } else if !o.suspendOk {
      SuspendFailedPathCount(tid, t, st);
    } else {
      var captured := if o.contextOk then Walked(tid, Callstack(canWalk, symbols, o.unwinder)) else ContextFailed(tid);
      FullPathCount(tid, captured, t, st);
    }
  }

  /** The part of the enumeration one snapshot entry contributes. */
  lemma EntryReaches(canWalk: bool, symbols: SymbolHost, pid: nat, currentTid: nat, x: ThreadEntry, t: nat, st: Stage)
    ensures StageCount(EntryTrace(canWalk, symbols, pid, currentTid, x), t, st)
            == if t != currentTid && x.ownerPid == pid && x.threadId == t && Reaches(x.host, st) then 1 else 0
  {
    if x.ownerPid == pid {
      ThreadTraceReaches(canWalk, symbols, currentTid, x.threadId, x.host, t, st);
    }
  }

  /** Over the whole enumeration, every thread other than the caller is
      listed, opened, suspended and walked once for each snapshot entry of
      the process whose host answers get that far; the caller never is. */
  lemma {:induction false} VisitThreadsReaches(canWalk: bool, symbols: SymbolHost, pid: nat, currentTid: nat,
                                               entries: seq<ThreadEntry>, t: nat, st: Stage)
    ensures StageCount(VisitThreads(canWalk, symbols, pid, currentTid, entries), t, st)
            == if t == currentTid then 0 else OwnedReaching(entries, pid, t, st)
    decreases |entries|
  {
    if entries != [] {
      var x := entries[0];
      var head := EntryTrace(canWalk, symbols, pid, currentTid, x);
      var rest := VisitThreads(canWalk, symbols, pid, currentTid, entries[1..]);
      assert VisitThreads(canWalk, symbols, pid, currentTid, entries) == head + rest;
      StageCountAppend(head, rest, t, st);
      EntryReaches(canWalk, symbols, pid, currentTid, x, t, st);
      VisitThreadsReaches(canWalk, symbols, pid, currentTid, entries[1..], t, st);
      assert OwnedReaching(entries, pid, t, st)
             == (if x.ownerPid == pid && x.threadId == t && Reaches(x.host, st) then 1 else 0)
                + OwnedReaching(entries[1..], pid, t, st);
    }
  }

  /** Every stack in the enumeration is the walk of the snapshot entry it
      belongs to, computed from that thread's own unwinder. */
  lemma {:induction false} VisitThreadsWalkedFrames(canWalk: bool, symbols: SymbolHost, pid: nat, currentTid: nat,
                                                    entries: seq<ThreadEntry>)
    ensures forall e | e in VisitThreads(canWalk, symbols, pid, currentTid, entries) && e.Walked? ::
              exists x | x in entries :: x.ownerPid == pid && x.threadId == e.tid
                                         && e.frames == Callstack(canWalk, symbols, x.host.unwinder)
    decreases |entries|
  {
    if entries != [] {
      var x := entries[0];
      var head := EntryTrace(canWalk, symbols, pid, currentTid, x);
      var rest := VisitThreads(canWalk, symbols, pid, currentTid, entries[1..]);
      assert VisitThreads(canWalk, symbols, pid, currentTid, entries) == head + rest;
      VisitThreadsWalkedFrames(canWalk, symbols, pid, currentTid, entries[1..]);
      forall e: ThreadEvent | e in head + rest && e.Walked?
        ensures exists y | y in entries :: y.ownerPid == pid && y.threadId == e.tid
                                           && e.frames == Callstack(canWalk, symbols, y.host.unwinder)
      {
        if e in head {
          assert x in entries && x.ownerPid == pid && x.threadId == e.tid;
        } else {
          var y :| y in entries[1..] && y.ownerPid == pid && y.threadId == e.tid
                   && e.frames == Callstack(canWalk, symbols, y.host.unwinder);
          assert y in entries;
        }
      }
    }
  }

  /** Every event sits under its own thread's "Thread:" header: the report's
      notes and frame lines carry no thread id, so only the nearest header
      above them says which thread they belong to. `cur` is the thread of
      that header, if one has been written. */
  predicate UnderHeaders(cur: Option<nat>, trace: seq<ThreadEvent>)
    decreases |trace|
  {
    if trace == [] then true
    else if trace[0].Header? then UnderHeaders(Some(trace[0].tid), trace[1..])
    else cur == Some(trace[0].tid) && UnderHeaders(cur, trace[1..])
  }

  /** A trace that opens with a header can follow any trace whose events sit
      under their own headers. */
  lemma {:induction false} UnderHeadersAppend(cur: Option<nat>, a: seq<ThreadEvent>, b: seq<ThreadEvent>)
    requires UnderHeaders(cur, a)
    requires forall c: Option<nat> :: UnderHeaders(c, b)
    ensures UnderHeaders(cur, a + b)
    decreases |a|
  {
    if a == [] {
      assert a + b == b;
    } else {
      assert (a + b)[0] == a[0];
      assert (a + b)[1..] == a[1..] + b;
      if a[0].Header? {
        UnderHeadersAppend(Some(a[0].tid), a[1..], b);
      } else {
        UnderHeadersAppend(cur, a[1..], b);
      }
    }
  }

  /** One thread's notes and stack follow its own header, whatever came
      before it. */
  lemma ThreadTraceUnderHeader(canWalk: bool, symbols: SymbolHost, currentTid: nat, tid: nat, o: ThreadOracle,
                               cur: Option<nat>)
    ensures UnderHeaders(cur, GetThreadCallstack(canWalk, symbols, currentTid, tid, o))
  {
    var t := GetThreadCallstack(canWalk, symbols, currentTid, tid, o);
    var own := Some(tid);
    if tid != currentTid && o.openOk && o.suspendOk {
      assert UnderHeaders(own, t[5..]);
      assert UnderHeaders(own, t[4..]);
      assert UnderHeaders(own, t[3..]);
      assert UnderHeaders(own, t[2..]);
      assert UnderHeaders(own, t[1..]);
    } else if tid != currentTid && o.openOk {
      assert UnderHeaders(own, t[3..]);
      assert UnderHeaders(own, t[2..]);
      assert UnderHeaders(own, t[1..]);
    } else if tid != currentTid {
      assert UnderHeaders(own, t[1..]);
    }
  }

  /** Over the whole enumeration, each thread's notes and stack follow that
      thread's own header, never another thread's. */
  lemma {:induction false} VisitThreadsUnderHeaders(canWalk: bool, symbols: SymbolHost, pid: nat, currentTid: nat,
                                                    entries: seq<ThreadEntry>, cur: Option<nat>)
    ensures UnderHeaders(cur, VisitThreads(canWalk, symbols, pid, currentTid, entries))
    decreases |entries|
  {
    if entries != [] {
      var x := entries[0];
      var head := EntryTrace(canWalk, symbols, pid, currentTid, x);
      var rest := VisitThreads(canWalk, symbols, pid, currentTid, entries[1..]);
      assert VisitThreads(canWalk, symbols, pid, currentTid, entries) == head + rest;
      forall c: Option<nat> ensures UnderHeaders(c, rest) {
        VisitThreadsUnderHeaders(canWalk, symbols, pid, currentTid, entries[1..], c);
      }
      if x.ownerPid == pid {
        ThreadTraceUnderHeader(canWalk, symbols, currentTid, x.threadId, x.host, cur);
      }
      UnderHeadersAppend(cur, head, rest);
    }
  }

  /** GetAllThreadsCallstacks: nothing when the snapshot cannot be taken;
      otherwise every thread of the current process except the caller is
      visited (and no other thread), opened, suspended and walked as often as
      its host answers allow, and the whole trace follows the handle
      discipline with every suspend resumed and every open handle closed. */
  method GetAllThreadsCallstacks(canWalk: bool, symbols: SymbolHost, pid: nat, currentTid: nat,
                                 snapshot: Option<seq<ThreadEntry>>) returns (trace: seq<ThreadEvent>)
    ensures snapshot.None? ==> trace == []
    ensures snapshot.Some? ==>
              forall e | e in trace ::
                e.tid != currentTid && exists x | x in snapshot.value :: x.ownerPid == pid && x.threadId == e.tid
    ensures snapshot.Some? ==>
              forall x | x in snapshot.value && x.ownerPid == pid && x.threadId != currentTid :: Header(x.threadId) in trace
    ensures snapshot.Some? ==>
              forall t, st :: StageCount(trace, t, st) == if t == currentTid then 0 else OwnedReaching(snapshot.value, pid, t, st)
    ensures snapshot.Some? ==>
              forall e | e in trace && e.Walked? ::
                exists x | x in snapshot.value :: x.ownerPid == pid && x.threadId == e.tid
                                                  && e.frames == Callstack(canWalk, symbols, x.host.unwinder)
    ensures snapshot.Some? ==> UnderHeaders(None, trace)
    ensures forall t :: multiset(trace)[Suspended(t)] == multiset(trace)[Resumed(t)]
    ensures forall t :: multiset(trace)[Opened(t)] == multiset(trace)[Closed(t)]
    ensures Disciplined(trace)
  {
    if snapshot.None? {
      return [];
    }
    var entries := snapshot.value;
    trace := VisitThreads(canWalk, symbols, pid, currentTid, entries);
    VisitThreadsDisciplined(canWalk, symbols, pid, currentTid, entries);
    VisitThreadsWalkedFrames(canWalk, symbols, pid, currentTid, entries);
    VisitThreadsUnderHeaders(canWalk, symbols, pid, currentTid, entries, None);
    forall t: nat
      ensures multiset(trace)[Suspended(t)] == multiset(trace)[Resumed(t)]
      ensures multiset(trace)[Opened(t)] == multiset(trace)[Closed(t)]
    {
      VisitThreadsPairing(canWalk, symbols, pid, currentTid, entries, t);
    }
    forall t, st ensures StageCount(trace, t, st) == if t == currentTid then 0 else OwnedReaching(entries, pid, t, st) {
      VisitThreadsReaches(canWalk, symbols, pid, currentTid, entries, t, st);
    }
  }
}

=== FILE: win32.dfy ===
/**
 Basic Win32 vocabulary shared by the crash handler model: nullable values and
 the 32-bit unsigned DWORD with its wrap-around arithmetic.
 */
module Win32 {

  /** A nullable value: `None` stands for a NULL pointer or a failed host query. */
  datatype Option<+T> = None | Some(value: T)

  const DwordModulus: nat := 0x1_0000_0000

  /** An unsigned 32-bit value. */
  type Dword = d: nat | d < DwordModulus

  /** The value C stores when it converts an integer to a DWORD (or computes in
      DWORD arithmetic): the residue modulo 2^32. */
  function ToDword(x: int): (d: Dword)
    ensures (x - d) % DwordModulus == 0
    ensures 0 <= x < DwordModulus ==> d == x
  {
    x % DwordModulus
  }
}
